=== FILE: README.md ===
# Asynchronous image-slice loading (napari), modelled in Dafny

This project models how a napari image layer loads one slice of an image:

- **`ImageSliceData`** (`napari/layers/image/_image_slice_data.py`) holds one slice's
  payload. A new slice's payload is `WaitingData(fut=None, source)`. The first
  `is_ready()` calls `sig_load()`. That calls `source.compute()` once, stores the
  returned future and registers a done-callback. After that, `is_ready()` reports
  the future's `done()`. `load_sync()` swaps the payload for `fut.result()` and
  turns the thumbnail into an ndarray. The callback runs `load_sync()` and then
  calls the layer's `_on_data_loaded(self, sync=False)`. `cancel()` cancels a
  waiting slice's future. `__del__` calls `cancel()`. `transpose(order)` permutes
  the axes of the loaded image and of its thumbnail.
- **`ImageLoader`** (`napari/layers/image/_image_loader.py`) is the default
  synchronous loader. `load()` calls `load_sync()` only when `is_ready()` says yes,
  and returns that answer. `match()` claims every slice.

The collaborators are modelled only as far as the core uses them:

- a `concurrent.futures.Future`, as a state machine
  `Pending | Running | Finished | Failed | Cancelled`. `done()` holds for the last
  three. `result()` raises `CancelledError` or the work's exception. `cancel()` runs
  the done-callbacks at once when it cancels a pending future;
- the layer's data source (`DataSource.compute`, `async_hammer.py`), which submits
  one computation per call and returns a fresh pending future;
- the layer, as the list of `_on_data_loaded(data, sync)` calls it receives;
- the executor's worker, which runs a submitted future's work and then its
  done-callbacks.

Arrays are reduced to their shape and to whether they are concrete ndarrays or
lazy arrays. Transposition follows numpy's rules for the axes: exactly one entry
per axis, negative entries counted from the end, and a `ValueError` otherwise.

Concurrency becomes explicit, sequential events. The caller's calls, the worker's
steps and the delivery of the callback are separate method calls, so an
interleaving is a sequence of calls. Python exceptions that escape a call are
`Raised(...)` values (`Wrappers.Outcome`). Uses that fail with an `AttributeError`
or `AssertionError` on the slice's own fields are preconditions. Examples are
`is_ready` on a loaded slice and `transpose` on a waiting one. The exception is
the done-callback: the future swallows what it raises, so `OnDone` returns its
`AttributeError` as a value.

Each module sits in its own file: `wrappers.dfy`, `arrays.dfy`, `futures.dfy`,
`image_slice_data.dfy`, `image_loader.dfy`, `executor.dfy` and `scenarios.dfy`.

### Behaviour of the code that a reader might not expect

- `is_ready()` reads `self.image.fut`. On a loaded slice the payload is an ndarray
  and this raises `AttributeError`. So `IsReady` (and `Load`) require a waiting
  slice. They do not answer `true`.
- `transpose()` calls `self.image.transpose(order)`, and `WaitingData` has no such
  method. So `Transpose` requires a loaded slice. It is never deferred into the
  lazy computation.
- No "still wanted" flag exists. A slice cancelled while its future is still
  pending never notifies its layer. Cancelling a pending future runs the callback
  at once. The callback's `load_sync()` then raises `CancelledError` before the
  notification, and the future swallows that exception. The worker later skips the
  cancelled work (`Scenarios.CancelWhilePending`).
- A slice cancelled while its work is running is not stopped. `Future.cancel()`
  refuses a running future. The work completes, the callback loads the slice, and
  the layer is notified of the discarded slice with `sync=false`
  (`Scenarios.CancelWhileRunning`).
- `load_sync()` asserts only that a future exists. Calling `result()` on a
  cancelled or failed future raises, and that exception leaves `load()`.
- If the worker finishes and `load()` runs before the callback, the late callback's
  `load_sync()` raises `AttributeError` on the ndarray payload. The layer then gets
  no asynchronous notification (`Scenarios.LoaderBeforeCallback`).
- The synchronous path notifies nobody. `load()` and `load_sync()` never call
  `_on_data_loaded`; only the done-callback does, with `sync=False`. `Load`
  may not modify the layer.

## Model

| member | source | states |
|---|---|---|
| `Arrays.AsArray` | napari/layers/image/_image_slice_data.py:96 | `np.asarray` keeps the shape and yields a concrete array |
| `Arrays.AsArrayIfPresent` | napari/layers/image/_image_slice_data.py:95-96 | a `None` thumbnail stays `None`; a present one becomes concrete with its shape kept |
| `Arrays.NormalizeAxis` | napari/layers/image/_image_slice_data.py:106-109 | numpy reads an axis in `[-n, n)` as an axis in `[0, n)`: a negative axis `a` is axis `a + n`, counted from the end, and a non-negative one is kept |
| `Arrays.ValidAxes` | napari/layers/image/_image_slice_data.py:106-109 | the axes numpy accepts (one per axis, each in `[-n, n)`, none named twice) name every axis of the array, so they are a permutation |
| `Arrays.TransposeArray` | napari/layers/image/_image_slice_data.py:106-109 | numpy raises exactly when the axes do not fit the rank; otherwise result axis `i` is input axis `order[i]` (negatives from the end), and the rank and the lazy/concrete kind are kept |
| `Arrays.InverseAxes` | napari/layers/image/_image_slice_data.py:98-109 | every valid axes list has a valid inverse that undoes it on both sides; its existence rests on the pigeonhole lemma `DistinctBelowCoverAll` |
| `Arrays.ComposeAxes` | napari/layers/image/_image_slice_data.py:98-109 | composing two valid axes lists gives a valid axes list |
| `Arrays.TransposeRoundTrip` | napari/layers/image/_image_slice_data.py:98-109 | transposing by an order and then by its inverse (or the other way round) gives back the shape |
| `Arrays.TransposeTwice` | napari/layers/image/_image_slice_data.py:98-109 | two transposes in a row equal one transpose by the composed order |
| `Arrays.DistinctBelowCoverAll` | napari/layers/image/_image_slice_data.py:106 | `n` distinct axes below `n` name every axis, so a transpose order is a permutation |
| `Futures.Future.Done` | napari/layers/image/_image_slice_data.py:85 | `done()` holds exactly when the future is neither waiting for a worker nor running: finished, failed or cancelled |
| `Futures.Future.Result` | napari/layers/image/_image_slice_data.py:94 | `result()` of a done future returns the work's value exactly when it finished; otherwise it raises `CancelledError` or the work's error |
| `Futures.Future.AddDoneCallback` | napari/layers/image/_image_slice_data.py:71 | registers exactly one more callback, leaves the state alone, and reports whether the future is already done |
| `Futures.Future.Cancel` | napari/layers/image/_image_slice_data.py:77 | only a pending future becomes cancelled, and its callbacks become due (`invoke`); a cancelled one reports success; running, finished and failed ones stay as they are |
| `Futures.Future.SetRunningOrNotifyCancel` | async_hammer.py:34 | the worker runs a pending future and skips a cancelled one |
| `Futures.Future.SetResult` | async_hammer.py:29-32 | work that returns leaves the future finished with its value |
| `Futures.Future.SetException` | async_hammer.py:29-32 | work that raises leaves the future failed |
| `Futures.Source.Compute` | async_hammer.py:28-36 | each call submits exactly one computation and returns a fresh pending future whose work yields a concrete array of the source's shape |
| `ImageSlices.Layer.OnDataLoaded` | napari/layers/image/_image_slice_data.py:69 | the layer records exactly one more `(slice, sync)` notification |
| `ImageSlices.ImageSliceData.constructor` | napari/layers/image/_image_slice_data.py:47-58 | a new slice is `Waiting(None, source)`, has submitted nothing, and stores layer, indices and thumbnail as given |
| `ImageSlices.ImageSliceData.SigLoad` | napari/layers/image/_image_slice_data.py:60-72 | with a future present, nothing changes; otherwise `compute()` runs exactly once, its fresh pending future is stored and carries exactly one callback (kept in `Valid`); the thumbnail is unchanged |
| `ImageSlices.ImageSliceData.IsReady` | napari/layers/image/_image_slice_data.py:82-89 | afterwards a future is present; the answer is that future's `done()`; a first call submits once and answers false; later calls change nothing |
| `ImageSlices.ImageSliceData.LoadSync` | napari/layers/image/_image_slice_data.py:91-96 | with a finished future the payload becomes `Ready(result)` and a present thumbnail becomes concrete; with a cancelled or failed one it raises what `result()` raises and nothing changes |
| `ImageSlices.ImageSliceData.OnDone` | napari/layers/image/_image_slice_data.py:67-69 | on a waiting slice whose future finished, the callback loads it and appends exactly one notification `(slice, sync=false)`; otherwise it raises (`CancelledError`, the work's error, or `AttributeError` on an already loaded slice), and neither the slice nor the layer changes |
| `ImageSlices.ImageSliceData.Cancel` | napari/layers/image/_image_slice_data.py:74-77 | only a waiting slice's pending future becomes cancelled; the payload, the thumbnail and the layer's notifications stay unchanged; no-op before submission or once loaded |
| `ImageSlices.ImageSliceData.Finalize` | napari/layers/image/_image_slice_data.py:79-80 | destruction has exactly the effect of `cancel` |
| `ImageSlices.ImageSliceData.Transpose` | napari/layers/image/_image_slice_data.py:98-109 | the loaded image is permuted by `order`, then a present thumbnail; `None` stays `None`; bad axes for the image change nothing and raise; bad axes for the thumbnail alone raise and leave the image transposed |
| `ImageLoaders.ImageLoader.Load` | napari/layers/image/_image_loader.py:22-43 | returns what `is_ready` returned: false leaves the slice waiting on its submitted future; true leaves it `Ready` with its future's result; a cancelled or failed future makes it raise; a new slice submits exactly once, gets false, and is left waiting on a fresh pending future |
| `ImageLoaders.ImageLoader.Match` | napari/layers/image/_image_loader.py:45-58 | every slice matches, and nothing changes |
| `Executor.RunSubmittedWork` | napari/layers/image/_image_slice_data.py:64-71 | work that completes leaves the slice `Ready` with the work's value and notifies the layer once with `sync=false`; failed work notifies nobody; cancelled work is skipped and changes nothing |
| `Scenarios.PollThenComplete` | napari/layers/image/_image_slice_data.py:60-89 | first `is_ready` is false with one submission; after the work completes the slice holds the computed array and the layer got exactly one `sync=false` notification |
| `Scenarios.CancelBeforePolling` | napari/layers/image/_image_slice_data.py:74-77 | cancelling before any `is_ready` submits nothing and notifies nobody |
| `Scenarios.LoadThenReplace` | napari/layers/image/_image_loader.py:37-43 | a new slice that the loader finds not ready and that is then discarded (`__del__`) ends with one submission, its future cancelled, and no notification to the layer |
| `Scenarios.CancelWhilePending` | napari/layers/image/_image_slice_data.py:74-96 | after cancelling a pending load, no notification arrives and a later `load` raises `CancelledError` |
| `Scenarios.CancelWhileRunning` | napari/layers/image/_image_slice_data.py:67-77 | cancelling while the work runs leaves the future uncancelled; the work completes, the slice ends loaded and the layer gets one `sync=false` notification |
| `Scenarios.LoaderBeforeCallback` | napari/layers/image/_image_loader.py:37-40 | a `load` that runs before the callback returns true; the late callback raises `AttributeError` and the layer is not notified |
| `Scenarios.PollRepeatedly` | napari/layers/image/_image_slice_data.py:82-89 | any number `n` of `is_ready` calls before the work runs submit exactly once (none when `n` is 0), and every answer is false |
| `Scenarios.TransposeThenUndo` | napari/layers/image/_image_slice_data.py:98-109 | transposing a loaded slice and then transposing by the inverse order restores its image and thumbnail, also when the thumbnail's rank does not fit and both transposes raise after permuting the image |

## Left out

- The `dbg` helpers (stack inspection and `print`), in both core files and in `async_hammer.py`.
- The viewer launch script in `async_hammer.py:51-60`, and the data source's `shape`, `dtype` and `__getitem__` (`async_hammer.py:38-48`). The data source is reduced to `compute()`: its shape and a submission counter.
- The work itself: the one-second `sleep` and `dask.compute()`. A future only records the array its work yields, or that the work raised.
- Array contents and dtype: arrays are shapes plus a lazy/concrete flag.
- Threads. The caller and the worker are sequential method calls, and the callback runs when the caller of `OnDone` (the worker, or `cancel`) invokes it. No two steps overlap.
- Garbage collection: `__del__` is the explicit call `Finalize`. In the program, `__del__` cannot run while the work is queued or running, because the future holds `cb` and `cb` holds the slice. So `Finalize` on a slice with a pending future stands for a call the program never makes in that state.
- The effect of `_on_data_loaded` on the layer (re-rendering). Only the call is recorded.
- The logging of an exception raised inside a done-callback. The model returns the exception and drops it.
- `ImageSlices.ImageSliceData.LoadSync`: requires the future to be done. `result()` on an unfinished future blocks until the worker finishes, and blocking cannot be expressed in this sequential model. Both callers in the source only reach `load_sync` once the future is done.
- `Futures.Future.AddDoneCallback`: calling the callback at once on an already-done future is reported, not performed. The sequential model excludes that race: `Compute` returns a pending future. The program does not exclude it. The future is already with the thread pool, and if it is done before the callback is registered, `cb` runs inside `sig_load`. The later `.fut` reads (the debug line after registration and the recursive `is_ready`) then raise `AttributeError` on the ndarray payload.
- Python's distinction between `CANCELLED` and `CANCELLED_AND_NOTIFIED` is merged into `Cancelled`.
- An image argument without a `compute()` method: the slice's image is always a data source here.
- `indices` are stored and never read. They are sequences of optional Python slices.

=== FILE: arrays.dfy ===
/** Arrays as the core sees them: only their shape, and whether they are a
    concrete numpy ndarray or a lazy (dask-like) array. The transpose rules
    are numpy's: the axes list names every axis once, and a negative axis
    counts from the end. */
module Arrays {
  import opened Wrappers

  /** An array-like value: its extent along each axis, and whether it is a
      concrete ndarray (`true`) or a lazy array not yet computed (`false`). */
  datatype Array = Array(shape: seq<nat>, concrete: bool)

  /** `np.asarray`: the same array, made concrete. */
  function AsArray(a: Array): (r: Array)
    ensures r.concrete && r.shape == a.shape
  {
    a.(concrete := true)
  }

  /** `np.asarray` applied to an optional thumbnail: `None` stays `None`. */
  function AsArrayIfPresent(t: Option<Array>): (r: Option<Array>)
    ensures r.None? <==> t.None?
    ensures t.Some? ==> r.value.concrete && r.value.shape == t.value.shape
  {
    match t
    case None => None
    case Some(a) => Some(AsArray(a))
  }

  /** numpy's reading of one axis number for an array of rank `n`. */
  function NormalizeAxis(axis: int, n: nat): (k: int)
    ensures -(n as int) <= axis < n ==> 0 <= k < n
    ensures 0 <= axis ==> k == axis
    ensures axis < 0 ==> k == axis + n
  {
    if axis < 0 then axis + n else axis
  }

  /** The axes lists numpy's `transpose` accepts for an array of rank `n`:
      one entry per axis, each within `[-n, n)`, no axis named twice. Such a
      list names every axis, so it is a permutation of the axes. */
  predicate ValidAxes(order: seq<int>, n: nat): (valid: bool)
    ensures valid ==> forall j :: 0 <= j < n ==> j in Axes(order, n)
  {
    var fits :=
      |order| == n
      && (forall i :: 0 <= i < n ==> -(n as int) <= order[i] < n)
      && (forall i, j :: 0 <= i < j < n ==> NormalizeAxis(order[i], n) != NormalizeAxis(order[j], n));
    if fits then DistinctBelowCoverAll(Axes(order, n), n); true else false
  }

  /** The entries of `order` read as axes of an array of rank `n`. */
  function Axes(order: seq<int>, n: nat): (p: seq<int>)
    ensures |p| == |order|
    ensures forall i :: 0 <= i < |p| ==> p[i] == NormalizeAxis(order[i], n)
  {
    seq(|order|, i requires 0 <= i < |order| => NormalizeAxis(order[i], n))
  }

  /** Axis `i` of the result is axis `order[i]` of the input. */
  function TransposeShape(shape: seq<nat>, order: seq<int>): seq<nat>
    requires ValidAxes(order, |shape|)
  {
    seq(|shape|, i requires 0 <= i < |shape| => shape[NormalizeAxis(order[i], |shape|)])
  }

  /** `np.transpose(a, order)` / `a.transpose(order)`: a ValueError for axes
      that do not fit the array's rank, otherwise the array with its axes
      permuted and its kind (lazy or concrete) kept. */
  function TransposeArray(a: Array, order: seq<int>): (r: Outcome<Array>)
    ensures r.Raised? <==> !ValidAxes(order, |a.shape|)
    ensures r.Raised? ==> r.error == AxisError
    ensures r.Returned? ==> r.value.concrete == a.concrete && |r.value.shape| == |a.shape|
    ensures r.Returned? ==> forall i :: 0 <= i < |a.shape| ==>
      r.value.shape[i] == a.shape[NormalizeAxis(order[i], |a.shape|)]
  {
    if ValidAxes(order, |a.shape|) then Returned(a.(shape := TransposeShape(a.shape, order)))
    else Raised(AxisError)
  }

  /** `n` distinct numbers, each below `n`, are all the numbers below `n`
      (the pigeonhole principle). */
  lemma {:induction false} DistinctBelowCoverAll(p: seq<int>, n: nat)
    requires |p| == n
    requires forall i :: 0 <= i < n ==> 0 <= p[i] < n
    requires forall i, j :: 0 <= i < j < n ==> p[i] != p[j]
    ensures forall j :: 0 <= j < n ==> j in p
    decreases n
  {
    if n > 0 {
      // Keep the first n - 1 numbers, with n - 1 (if among them) replaced by
      // the last number: n - 1 distinct numbers below n - 1.
      var last := p[n - 1];
      var q := seq(n - 1, i requires 0 <= i < n - 1 => if p[i] == n - 1 then last else p[i]);
      DistinctBelowCoverAll(q, n - 1);
      forall j | 0 <= j < n ensures j in p {
        if j == last {
        } else if j < n - 1 {
          var i := PositionOf(q, j);
          assert p[i] == j;
        } else {
          var i := PositionOf(q, last);
          assert p[i] == n - 1;
        }
      }
    }
  }

  /** The first position of `j` in `p`. */
  function PositionOf(p: seq<int>, j: int): (i: nat)
    requires j in p
    ensures i < |p| && p[i] == j
  {
    if p[0] == j then 0 else 1 + PositionOf(p[1..], j)
  }

  /** The axes list that undoes a transpose by `order`. */
  function InverseAxes(order: seq<int>): (inv: seq<int>)
    requires ValidAxes(order, |order|)
    ensures ValidAxes(inv, |order|)
    ensures forall j :: 0 <= j < |order| ==> 0 <= inv[j] < |order|
    ensures forall i :: 0 <= i < |order| ==> inv[NormalizeAxis(order[i], |order|)] == i
    ensures forall j :: 0 <= j < |order| ==> NormalizeAxis(order[inv[j]], |order|) == j
  {
    var p := Axes(order, |order|);
    seq(|order|, j requires 0 <= j < |order| => PositionOf(p, j))
  }

  /** The single axes list equivalent to transposing by `first`, then by `second`. */
  function ComposeAxes(first: seq<int>, second: seq<int>): (c: seq<int>)
    requires ValidAxes(first, |first|) && ValidAxes(second, |first|)
    ensures ValidAxes(c, |first|)
  {
    var n := |first|;
    seq(n, i requires 0 <= i < n => NormalizeAxis(first[NormalizeAxis(second[i], n)], n))
  }

  /** Transposing by `order` and then by its inverse gives back the shape,
      and so does the other way round. */
  lemma TransposeRoundTrip(shape: seq<nat>, order: seq<int>)
    requires ValidAxes(order, |shape|)
    ensures TransposeShape(TransposeShape(shape, order), InverseAxes(order)) == shape
    ensures TransposeShape(TransposeShape(shape, InverseAxes(order)), order) == shape
  {
  }

  /** Two transposes in a row are one transpose by the composed axes. */
  lemma TransposeTwice(shape: seq<nat>, first: seq<int>, second: seq<int>)
    requires ValidAxes(first, |shape|) && ValidAxes(second, |shape|)
    ensures TransposeShape(TransposeShape(shape, first), second)
         == TransposeShape(shape, ComposeAxes(first, second))
  {
  }
}

=== FILE: executor.dfy ===
/** The executor's side of a submitted load: one of its workers runs the
    work and then the future's done-callbacks. */
module Executor {
  import opened Wrappers
  import opened Arrays
  import opened Futures
  import opened ImageSlices

  /** A worker takes up `fut`, the work submitted for slice `s`: a cancelled future
      is skipped (its callback already ran when it was cancelled); otherwise
      the work returns (`succeeds`) or raises, the future is done, and its
      one done-callback, the slice's `OnDone`, runs. */
  method RunSubmittedWork(s: ImageSliceData, fut: Future, succeeds: bool)
    requires s.Valid() && s.submitted == Some(fut)
    requires fut.state.Pending? || fut.state.Cancelled?
    modifies s, s.layer, fut
    ensures s.Valid() && s.submitted == old(s.submitted)
    ensures old(s.submitted.value.state).Cancelled? ==>
      s.submitted.value.state == Cancelled
      && s.image == old(s.image) && s.thumbnailSource == old(s.thumbnailSource)
      && s.layer.notifications == old(s.layer.notifications)
    ensures old(s.submitted.value.state).Pending? && succeeds ==>
      s.submitted.value.state == Finished
      && s.image == Ready(s.submitted.value.work)
      && s.thumbnailSource == AsArrayIfPresent(old(s.thumbnailSource))
      && s.layer.notifications == old(s.layer.notifications) + [Notification(s, false)]
    ensures old(s.submitted.value.state).Pending? && !succeeds ==>
      s.submitted.value.state == Failed
      && s.image == old(s.image) && s.thumbnailSource == old(s.thumbnailSource)
      && s.layer.notifications == old(s.layer.notifications)
  {
    var run := fut.SetRunningOrNotifyCancel();
    if run {
      if succeeds {
        fut.SetResult();
      } else {
        fut.SetException();
      }
      var _ := s.OnDone();
    }
  }
}

=== FILE: futures.dfy ===
/** The asynchronous collaborators of the core: a `concurrent.futures.Future`
    as a state machine, and the data source whose `compute()` submits the
    realisation of a lazy array and hands back its future.

    A future is driven by two parties. The owner of the slice may `Cancel`
    it; the executor's worker runs the submitted work
    (`SetRunningOrNotifyCancel`, then `SetResult` or `SetException`). In the
    model these are separate calls made one after the other, so every
    interleaving of worker and caller is a sequence of such calls. */
module Futures {
  import opened Wrappers
  import opened Arrays

  datatype FutureState =
    | Pending             // submitted, not yet picked up by a worker
    | Running             // a worker is computing it; it can no longer be cancelled
    | Finished            // the work returned `work`
    | Failed              // the work raised
    | Cancelled

  class Future {
    /** What the submitted work returns when it runs to completion. */
    const work: Array
    var state: FutureState
    /** The number of done-callbacks registered with `add_done_callback`,
        leaving out the source's debug-logging callback. */
    var callbacks: nat

    constructor (work: Array)
      ensures this.work == work && state == Pending && callbacks == 0
    {
      this.work := work;
      state := Pending;
      callbacks := 0;
    }

    /** `done()`: true once the future finished, failed or was cancelled,
        that is, once it is neither waiting for a worker nor running. */
    predicate Done(): (done: bool)
      reads this
      ensures done <==> !state.Pending? && !state.Running?
    {
      state.Finished? || state.Failed? || state.Cancelled?
    }

    /** `result()` on a future that is done: the work's value, or the
        exception that `result()` raises. (On a future that is not done it
        blocks; see `LoadSync`.) */
    function Result(): (r: Outcome<Array>)
      reads this
      requires Done()
      ensures r.Returned? <==> state.Finished?
      ensures state.Finished? ==> r.value == work
      ensures state.Cancelled? ==> r == Raised(CancelledError)
      ensures state.Failed? ==> r == Raised(WorkError)
    {
      match state
      case Finished => Returned(work)
      case Failed => Raised(WorkError)
      case Cancelled => Raised(CancelledError)
    }

    /** `add_done_callback(fn)`: records one more callback. If the future is
        already done, Python calls `fn` at once instead; `callNow` reports
        that case to the caller, who then makes the call. */
    method AddDoneCallback() returns (callNow: bool)
      modifies this
      ensures callNow == Done()
      ensures state == old(state) && callbacks == old(callbacks) + 1
    {
      callbacks := callbacks + 1;
      callNow := Done();
    }

    /** `cancel()`: a pending future becomes cancelled and its callbacks are
        due (`invoke`); a cancelled one reports success and changes nothing;
        a running, finished or failed one cannot be cancelled. */
    method Cancel() returns (cancelled: bool, invoke: bool)
      modifies this
      ensures callbacks == old(callbacks)
      ensures old(state).Pending? ==> state == Cancelled && cancelled && invoke
      ensures !old(state).Pending? ==> state == old(state) && !invoke
      ensures cancelled <==> old(state).Pending? || old(state).Cancelled?
    {
      match state
      case Pending =>
        state := Cancelled;
        cancelled, invoke := true, true;
      case Cancelled =>
        cancelled, invoke := true, false;
      case _ =>
        cancelled, invoke := false, false;
    }

    /** The worker picks the work up: a pending future starts running; a
        cancelled one tells the worker to skip the work. */
    method SetRunningOrNotifyCancel() returns (run: bool)
      requires state.Pending? || state.Cancelled?
      modifies this
      ensures callbacks == old(callbacks)
      ensures run <==> old(state).Pending?
      ensures state == if run then Running else old(state)
    {
      run := state.Pending?;
      if run {
        state := Running;
      }
    }

    /** The work returned: the future finishes with its value and its
        callbacks are due. */
    method SetResult()
      requires state.Running?
      modifies this
      ensures state == Finished && callbacks == old(callbacks)
    {
      state := Finished;
    }

    /** The work raised: the future fails and its callbacks are due. */
    method SetException()
      requires state.Running?
      modifies this
      ensures state == Failed && callbacks == old(callbacks)
    {
      state := Failed;
    }
  }

  /** A lazy array bound to an executor (the `DataSource` of a layer). */
  class Source {
    /** The shape of the lazy array, and so of what computing it yields. */
    const shape: seq<nat>
    /** How many realisations have been submitted through `Compute`. */
    var submissions: nat

    constructor (shape: seq<nat>)
      ensures this.shape == shape && submissions == 0
    {
      this.shape := shape;
      submissions := 0;
    }

    /** `compute()`: submits one realisation of the lazy array to the
        executor and returns its future, fresh and pending, whose work yields
        a concrete array of the source's shape. The source's own debug-logging
        callback on that future is not counted in `callbacks`. */
    method Compute() returns (f: Future)
      modifies this
      ensures fresh(f) && f.state == Pending && f.callbacks == 0
      ensures f.work == Array(shape, true)
      ensures submissions == old(submissions) + 1
    {
      f := new Future(Array(shape, true));
      submissions := submissions + 1;
    }
  }
}

=== FILE: image_loader.dfy ===
/** The default synchronous loader: it loads a slice only when the slice's
    future is already done, and claims every slice. */
module ImageLoaders {
  import opened Wrappers
  import opened Arrays
  import opened Futures
  import opened ImageSlices

  class ImageLoader {
    constructor ()
    {
    }

    /** `load`: ask the slice whether it is ready (which submits its
        computation the first time) and, if it is, load it synchronously.
        Returns what `is_ready` returned, unless `load_sync` raised. */
    method Load(data: ImageSliceData) returns (r: Outcome<bool>)
      requires data.Valid() && data.image.Waiting?
      modifies data, data.origin
      ensures data.Valid() && data.submitted.Some?
      ensures old(data.submitted).Some? ==> data.submitted == old(data.submitted)
      ensures data.origin.submissions
           == old(data.origin.submissions) + (if old(data.submitted).None? then 1 else 0)
      // Not ready: nothing is loaded; the slice now waits on a submitted future.
      ensures !data.submitted.value.Done() ==>
        r == Returned(false)
        && data.image == Waiting(data.submitted, data.origin)
        && data.thumbnailSource == old(data.thumbnailSource)
      // Ready with a result: the slice holds it.
      ensures data.submitted.value.state.Finished? ==>
        r == Returned(true)
        && data.image == Ready(data.submitted.value.work)
        && data.thumbnailSource == AsArrayIfPresent(old(data.thumbnailSource))
      // Done without a result: `load_sync` raised what `result()` raises.
      ensures data.submitted.value.Done() && !data.submitted.value.state.Finished? ==>
        r == Raised(data.submitted.value.Result().error)
        && data.image == Waiting(data.submitted, data.origin)
        && data.thumbnailSource == old(data.thumbnailSource)
      // A slice that had not submitted yet submits now, and is not ready.
      ensures old(data.submitted).None? ==>
        r == Returned(false) && fresh(data.submitted.value)
        && data.submitted.value.state.Pending?
    {
      var ready := data.IsReady();
      if ready {
        var raised := data.LoadSync();
        if raised.Some? {
          return Raised(raised.value);
        }
        return Returned(true);
      } else {
        return Returned(false);
      }
    }

    /** `match`: this loader claims every slice. */
    function Match(data: ImageSliceData): (r: bool)
      ensures r
    {
      true
    }
  }
}

=== FILE: image_slice_data.dfy ===
/** One slice of an image layer and the state machine that loads it.

    The payload starts as `Waiting(None, source)`. The first readiness check
    submits the source's computation and registers a done-callback,
    giving `Waiting(Some(future), source)`. Loading then replaces the payload
    with the future's result, `Ready(array)`, either synchronously (through a
    loader) or from the done-callback, which also tells the layer. */
module ImageSlices {
  import opened Wrappers
  import opened Arrays
  import opened Futures

  /** A Python `slice(start, stop, step)`. */
  datatype Slice = Slice(start: Option<int>, stop: Option<int>, step: Option<int>)

  /** The image of a slice: still waiting for its source to be computed, or
      the concrete array it computed to. */
  datatype Payload =
    | Waiting(fut: Option<Future>, source: Source)
    | Ready(arr: Array)

  /** One `_on_data_loaded(data, sync)` call received by a layer. */
  datatype Notification = Notification(data: ImageSliceData, sync: bool)

  /** The layer a slice belongs to, reduced to the notifications it gets. */
  class Layer {
    var notifications: seq<Notification>

    constructor ()
      ensures notifications == []
    {
      notifications := [];
    }

    /** `_on_data_loaded`: the slice's data is now loaded. */
    method OnDataLoaded(data: ImageSliceData, sync: bool)
      modifies this
      ensures notifications == old(notifications) + [Notification(data, sync)]
    {
      notifications := notifications + [Notification(data, sync)];
    }
  }

  class ImageSliceData {
    const layer: Layer
    const indices: seq<Option<Slice>>
    var image: Payload
    var thumbnailSource: Option<Array>

    /** The source the slice was created with. */
    ghost const origin: Source
    /** The future this slice submitted, kept after the payload is `Ready`. */
    ghost var submitted: Option<Future>
    /** How many times this slice has called `compute()` on its source. It
        mirrors `submitted` (`Valid` ties the two); the source's own count of
        submissions is `origin.submissions`. */
    ghost var computeCalls: nat

    ghost function Footprint(): set<object>
      reads this
    {
      if submitted.Some? then {submitted.value} else {}
    }

    /** The slice's invariant. Above all: it has called `compute()` at most
        once, and exactly when it holds a future; that future carries exactly
        one counted done-callback, the slice's own `cb` (the source's
        debug-logging callback is left out of the count). */
    ghost predicate Valid()
      reads this, Footprint()
    {
      computeCalls == (if submitted.Some? then 1 else 0)
      && (image.Waiting? ==> image.source == origin && image.fut == submitted)
      && (image.Ready? ==>
            submitted.Some? && submitted.value.state.Finished?
            && image.arr.concrete
            && (thumbnailSource.Some? ==> thumbnailSource.value.concrete))
      && (submitted.Some? ==>
            submitted.value.callbacks == 1 && submitted.value.work == Array(origin.shape, true))
    }

    /** A new slice waits for its source and has submitted nothing yet. */
    constructor (layer: Layer, indices: seq<Option<Slice>>, image: Source, thumbnailSource: Option<Array>)
      ensures Valid()
      ensures this.layer == layer && this.indices == indices
      ensures this.image == Waiting(None, image) && this.thumbnailSource == thumbnailSource
      ensures origin == image && submitted.None? && computeCalls == 0
    {
      this.layer := layer;
      this.indices := indices;
      this.image := Waiting(None, image);
      this.thumbnailSource := thumbnailSource;
      origin := image;
      submitted := None;
      computeCalls := 0;
    }

    /** `sig_load`: submit the source's computation, unless already done, and
        register the done-callback `OnDone` on its future. */
    method SigLoad()
      requires Valid() && image.Waiting?
      modifies this, origin
      ensures Valid() && image.Waiting? && image.fut.Some?
      ensures thumbnailSource == old(thumbnailSource)
      ensures old(image.fut).Some? ==>
        image == old(image) && submitted == old(submitted) && unchanged(origin)
      ensures old(image.fut).None? ==>
        fresh(image.fut.value) && image.fut.value.state.Pending?
        && origin.submissions == old(origin.submissions) + 1
    {
      if image.fut.None? {
        var fut := image.source.Compute();
        image := image.(fut := Some(fut));
        submitted := Some(fut);
        computeCalls := computeCalls + 1;
        var callNow := fut.AddDoneCallback();
        // The future is fresh and pending, so its callback is not due yet.
        assert !callNow;
      }
    }

    /** `is_ready`: whether the future is done, submitting it first if the
        slice has none (one level of recursion). */
    method IsReady() returns (ready: bool)
      requires Valid() && image.Waiting?
      modifies this, origin
      decreases if image.fut.None? then 1 else 0
      ensures Valid() && image.Waiting? && image.fut.Some?
      ensures ready == image.fut.value.Done()
      ensures thumbnailSource == old(thumbnailSource)
      ensures old(image.fut).Some? ==>
        image == old(image) && submitted == old(submitted) && unchanged(origin)
      ensures old(image.fut).None? ==>
        fresh(image.fut.value) && image.fut.value.state.Pending? && !ready
        && origin.submissions == old(origin.submissions) + 1
    {
      if image.fut.Some? {
        ready := image.fut.value.Done();
      } else {
        SigLoad();
        ready := IsReady();
      }
    }

    /** `load_sync`: take the future's result as the payload and make the
        thumbnail concrete. `result()` raises for a cancelled or failed
        future, and then nothing changes. */
    method LoadSync() returns (raised: Option<Exception>)
      requires Valid() && image.Waiting? && image.fut.Some? && image.fut.value.Done()
      modifies this
      ensures Valid() && submitted == old(submitted)
      ensures submitted.value.state.Finished? ==>
        raised.None? && image == Ready(submitted.value.work)
        && thumbnailSource == AsArrayIfPresent(old(thumbnailSource))
      ensures !submitted.value.state.Finished? ==>
        raised == Some(submitted.value.Result().error)
        && image == old(image) && thumbnailSource == old(thumbnailSource)
    {
      var r := image.fut.value.Result();
      match r
      case Raised(e) =>
        raised := Some(e);
      case Returned(arr) =>
        image := Ready(arr);
        thumbnailSource := AsArrayIfPresent(thumbnailSource);
        raised := None;
    }

    /** The done-callback `cb` that `SigLoad` registers: load the result,
        then tell the layer, asynchronously (`sync` false). An exception
        stops it before the notification; the future that runs the callback
        swallows it. */
    method OnDone() returns (raised: Option<Exception>)
      requires Valid() && submitted.Some? && submitted.value.Done()
      modifies this, layer
      ensures Valid() && submitted == old(submitted)
      ensures old(image).Waiting? && submitted.value.state.Finished? ==>
        raised.None? && image == Ready(submitted.value.work)
        && thumbnailSource == AsArrayIfPresent(old(thumbnailSource))
        && layer.notifications == old(layer.notifications) + [Notification(this, false)]
      ensures !(old(image).Waiting? && submitted.value.state.Finished?) ==>
        image == old(image) && thumbnailSource == old(thumbnailSource)
        && layer.notifications == old(layer.notifications)
      ensures old(image).Waiting? && !submitted.value.state.Finished? ==>
        raised == Some(submitted.value.Result().error)
      ensures old(image).Ready? ==> raised == Some(AttributeError)
    {
      if image.Ready? {
        // `load_sync` reads `.fut` of the ndarray payload.
        raised := Some(AttributeError);
        return;
      }
      raised := LoadSync();
      if raised.None? {
        layer.OnDataLoaded(this, false);
      }
    }

    /** `cancel`: cancel the future of a waiting slice. Cancelling a pending
        future runs its done-callback at once, whose `load_sync` raises
        `CancelledError`, so neither the slice nor the layer changes. */
    method Cancel()
      requires Valid()
      modifies this, layer, Footprint()
      ensures Valid() && submitted == old(submitted) && computeCalls == old(computeCalls)
      ensures image == old(image) && thumbnailSource == old(thumbnailSource)
      ensures layer.notifications == old(layer.notifications)
      ensures old(image).Waiting? && submitted.Some? && old(submitted.value.state).Pending? ==>
        submitted.value.state == Cancelled
      ensures submitted.Some? && !(old(image).Waiting? && old(submitted.value.state).Pending?) ==>
        submitted.value.state == old(submitted.value.state)
    {
      if image.Waiting? && image.fut.Some? {
        var fut := image.fut.value;
        var _, invoke := fut.Cancel();
        if invoke {
          var _ := OnDone();
        }
      }
    }

    /** `__del__`: a discarded slice cancels its load. */
    method Finalize()
      requires Valid()
      modifies this, layer, Footprint()
      ensures Valid() && submitted == old(submitted) && computeCalls == old(computeCalls)
      ensures image == old(image) && thumbnailSource == old(thumbnailSource)
      ensures layer.notifications == old(layer.notifications)
      ensures old(image).Waiting? && submitted.Some? && old(submitted.value.state).Pending? ==>
        submitted.value.state == Cancelled
      ensures submitted.Some? && !(old(image).Waiting? && old(submitted.value.state).Pending?) ==>
        submitted.value.state == old(submitted.value.state)
    {
      Cancel();
    }

    /** `transpose(order)`: permute the axes of the loaded image, then those
        of the thumbnail if there is one. numpy raises for axes that do not
        fit; if only the thumbnail's do not, the image stays transposed. */
    method Transpose(order: seq<int>) returns (raised: Option<Exception>)
      requires Valid() && image.Ready?
      modifies this
      ensures Valid() && image.Ready? && submitted == old(submitted)
      ensures !ValidAxes(order, |old(image.arr.shape)|) ==>
        raised == Some(AxisError) && image == old(image) && thumbnailSource == old(thumbnailSource)
      ensures ValidAxes(order, |old(image.arr.shape)|) ==>
        image == Ready(TransposeArray(old(image.arr), order).value)
      ensures ValidAxes(order, |old(image.arr.shape)|) && old(thumbnailSource).None? ==>
        raised.None? && thumbnailSource.None?
      ensures ValidAxes(order, |old(image.arr.shape)|) && old(thumbnailSource).Some? ==>
        var t := TransposeArray(old(thumbnailSource).value, order);
        if t.Returned? then raised.None? && thumbnailSource == Some(t.value)
        else raised == Some(AxisError) && thumbnailSource == old(thumbnailSource)
    {
      var r := TransposeArray(image.arr, order);
      if r.Raised? {
        raised := Some(r.error);
        return;
      }
      image := Ready(r.value);
      if thumbnailSource.Some? {
        var t := TransposeArray(thumbnailSource.value, order);
        if t.Raised? {
          raised := Some(t.error);
          return;
        }
        thumbnailSource := Some(t.value);
      }
      raised := None;
    }
  }
}

=== FILE: scenarios.dfy ===
/** Whole runs of the loading protocol: a slice, its layer, its source, the
    caller's calls and the executor's worker, in one fixed order each. What
    each run ends with is stated in its postcondition. */
module Scenarios {
  import opened Wrappers
  import opened Arrays
  import opened Futures
  import opened ImageSlices
  import opened ImageLoaders
  import opened Executor

  /** The first readiness check on a new slice submits its computation and
      answers false; when the worker finishes, the callback loads the slice
      and notifies the layer once, asynchronously. */
  method PollThenComplete() returns (firstAnswer: bool, submissions: nat, notes: seq<bool>, loaded: Option<Array>)
    ensures !firstAnswer && submissions == 1
    ensures notes == [false]
    ensures loaded == Some(Array([4, 4], true))
  {
    var layer := new Layer();
    var source := new Source([4, 4]);
    var s := new ImageSliceData(layer, [None, None], source, None);
    firstAnswer := s.IsReady();
    RunSubmittedWork(s, s.image.fut.value, true);
    submissions := source.submissions;
    var received := layer.notifications;
    notes := seq(|received|, i requires 0 <= i < |received| => received[i].sync);
    loaded := if s.image.Ready? then Some(s.image.arr) else None;
  }

  /** A slice cancelled before anyone asked whether it is ready never
      submits anything and never notifies its layer. */
  method CancelBeforePolling() returns (submissions: nat, notified: nat)
    ensures submissions == 0 && notified == 0
  {
    var layer := new Layer();
    var source := new Source([4, 4, 4]);
    var s := new ImageSliceData(layer, [Some(Slice(Some(0), Some(1), None)), None, None], source, None);
    s.Cancel();
    submissions := source.submissions;
    notified := |layer.notifications|;
  }

  /** A slice cancelled while its future is pending: the worker skips the
      work, the layer is never notified, and a later synchronous load raises
      `CancelledError`. */
  method CancelWhilePending() returns (loaded: Outcome<bool>, notified: nat)
    ensures loaded == Raised(CancelledError) && notified == 0
  {
    var layer := new Layer();
    var source := new Source([8, 8]);
    var s := new ImageSliceData(layer, [None, None], source, None);
    var _ := s.IsReady();
    var fut := s.image.fut.value;
    s.Cancel();
    RunSubmittedWork(s, fut, true);
    var loader := new ImageLoader();
    loaded := loader.Load(s);
    notified := |layer.notifications|;
  }

  /** The layer loads a new slice, which submits its computation and is not
      ready, and then discards it for a newer slice before the worker takes
      the job: the future ends cancelled, the worker skips it, and the layer
      is never notified. */
  method LoadThenReplace() returns (firstLoad: Outcome<bool>, cancelledState: bool, submissions: nat, notified: nat)
    ensures firstLoad == Returned(false)
    ensures cancelledState
    ensures submissions == 1 && notified == 0
  {
    var layer := new Layer();
    var source := new Source([8, 8]);
    var s := new ImageSliceData(layer, [None, None], source, None);
    var loader := new ImageLoader();
    firstLoad := loader.Load(s);
    var fut := s.image.fut.value;
    s.Finalize();
    cancelledState := fut.state.Cancelled?;
    RunSubmittedWork(s, fut, true);
    submissions := source.submissions;
    notified := |layer.notifications|;
  }

  /** A slice cancelled while its work is running: `cancel()` cannot stop
      a running future, so the work completes, the callback loads the slice
      and the layer is notified of the discarded slice all the same. */
  method CancelWhileRunning() returns (cancelledState: bool, notes: seq<bool>, loaded: Option<Array>)
    ensures !cancelledState
    ensures notes == [false]
    ensures loaded == Some(Array([8, 8], true))
  {
    var layer := new Layer();
    var source := new Source([8, 8]);
    var s := new ImageSliceData(layer, [None, None], source, None);
    var _ := s.IsReady();
    var fut := s.image.fut.value;
    var _ := fut.SetRunningOrNotifyCancel();
    s.Cancel();
    cancelledState := fut.state.Cancelled?;
    fut.SetResult();
    var _ := s.OnDone();
    var received := layer.notifications;
    notes := seq(|received|, i requires 0 <= i < |received| => received[i].sync);
    loaded := if s.image.Ready? then Some(s.image.arr) else None;
  }

  /** The loader sees the finished future before its callback has run: it
      loads the slice synchronously, and the late callback then raises
      `AttributeError` (the payload is an ndarray), so the layer gets no
      asynchronous notification. */
  method LoaderBeforeCallback() returns (loaded: Outcome<bool>, callback: Option<Exception>, notified: nat)
    ensures loaded == Returned(true)
    ensures callback == Some(AttributeError)
    ensures notified == 0
  {
    var layer := new Layer();
    var source := new Source([2, 3]);
    var s := new ImageSliceData(layer, [None, None], source, Some(Array([2, 3], false)));
    var _ := s.IsReady();
    var fut := s.image.fut.value;
    var run := fut.SetRunningOrNotifyCancel();
    fut.SetResult();
    var loader := new ImageLoader();
    loaded := loader.Load(s);
    callback := s.OnDone();
    notified := |layer.notifications|;
  }

  /** However often a new slice is asked whether it is ready before its
      work runs, it submits exactly once (none if never asked) and every
      answer is false. */
  method PollRepeatedly(n: nat) returns (answers: seq<bool>, submissions: nat)
    ensures |answers| == n && forall i :: 0 <= i < n ==> !answers[i]
    ensures submissions == if n == 0 then 0 else 1
  {
    var layer := new Layer();
    var source := new Source([16, 16]);
    var s := new ImageSliceData(layer, [None, None], source, None);
    answers := [];
    while |answers| < n
      invariant |answers| <= n && forall i :: 0 <= i < |answers| ==> !answers[i]
      invariant s.Valid() && s.image.Waiting? && s.origin == source
      invariant |answers| == 0 ==> s.submitted.None? && source.submissions == 0
      invariant |answers| > 0 ==>
        s.submitted.Some? && s.submitted.value.state.Pending? && source.submissions == 1
    {
      var ready := s.IsReady();
      answers := answers + [ready];
    }
    submissions := source.submissions;
  }

  /** Transposing a loaded slice by `order` and then by the inverse order
      gives back the image and thumbnail it had. A thumbnail whose rank does
      not fit makes both transposes raise after the image was permuted, and
      so stays as it was. */
  method TransposeThenUndo(s: ImageSliceData, order: seq<int>)
    requires s.Valid() && s.image.Ready?
    requires ValidAxes(order, |s.image.arr.shape|)
    modifies s
    ensures s.Valid() && s.image == old(s.image) && s.thumbnailSource == old(s.thumbnailSource)
  {
    var _ := s.Transpose(order);
    var _ := s.Transpose(InverseAxes(order));
    TransposeRoundTrip(old(s.image.arr.shape), order);
    if s.thumbnailSource.Some? && |s.thumbnailSource.value.shape| == |s.image.arr.shape| {
      TransposeRoundTrip(old(s.thumbnailSource.value.shape), order);
    }
  }
}

=== FILE: wrappers.dfy ===
/** Small result types shared by the model: Python's `None`-or-value and the
    exceptions that the modelled code lets escape. */
module Wrappers {

  datatype Option<+T> = None | Some(value: T)

  /** The Python exceptions that the core can raise. */
  datatype Exception =
    | CancelledError   // `Future.result()` on a cancelled future
    | WorkError        // `Future.result()` re-raising what the submitted work raised
    | AttributeError   // a field read on an ndarray payload, which has no `.fut`
    | AxisError        // numpy's ValueError for transpose axes that do not fit the array

  /** What a Python call produces: a value, or an exception that escapes it. */
  datatype Outcome<+T> = Returned(value: T) | Raised(error: Exception)
}
